=== FILE: README.md ===
# gmap-scrapper core, in Dafny

The scraper drives a browser through a Google Maps search. It scrolls the
results panel until enough places are loaded. Then it opens each result in
turn and writes one JSON record per place. This project models the parts of
`index.ts` that decide something, with the browser replaced by the values it
would return:

- **`ListingReference`** (`listing_reference.dfy`) is the extractor that
  reads a place's `dataId`, latitude and longitude out of its result link.
  The link is matched against
  `/!1s(?<id>[^!]+).+!3d(?<latitude>[^!]+)!4d(?<longitude>[^!]+)/gm` and the
  first match's groups are kept.
  - `IsMatch` says declaratively when the pattern matches a string.
  - `Precedes` is the order in which a backtracking engine tries matches.
  - `IsFirstMatch` picks the match the engine reports.
  - A hand-written scanner, `FirstMatch`, is proved to find exactly that
    match.

  A `char` is one Unicode scalar value, and `.` and `[^!]` each consume
  one whole `char`. For characters of the Basic Multilingual Plane this
  matches JavaScript, where the pattern, having no `u` flag, works on UTF-16
  code units.
- **`ListingReferenceFacts`** (`listing_reference_facts.dfy`) holds
  consequences of that description for concrete link shapes:
  - a typical place link;
  - an id followed directly by `!3d`, where the id loses its last character;
  - three example links.
- **`ScrollLoop`** (`scroll.dfy`) is the stopping rule of `scrollResult`.
  The panel heights and link counts the page would report are given as a
  finite trace of rounds, one per pass of the loop.
- **`Coercion`** (`coercion.dfy`) turns the review text into a count and
  rewrites the rating's decimal comma as a point.
- **`Scraper`** (`scraper.dfy`) assembles one record per result link and runs
  the gathering loop of `gettingDataFromPage`. Each link comes with the texts
  its detail panel shows. A text read through optional chaining is an
  `Option`, and an exception is a `ScrapeError` that ends the whole loop.
- **`Outcomes`** (`outcomes.dfy`) defines the shared `Option` and `Result`
  types.

Four behaviours of the code are kept as written, though a reader might expect otherwise:

- An id directly followed by `!3d` loses its last character when no later
  `!3d` follows on the same line. `.+` must take at least one character, so
  the engine backtracks into the id. When a later `!3d…!4d…` exists, greedy
  `.+` reaches it instead: the id stays whole and the later coordinates are
  reported.
- A missing rating or review text throws. It does not produce a placeholder
  value.
- One failing place ends the whole run. The loop does not skip it.
- `scrollResult` returns nothing. `gettingDataFromPage` queries the result
  links again, so the model takes them as a separate input.

## Model

| member | source | states |
|---|---|---|
| ListingReference.TailAt | index.ts:94 | the `!3d<lat>!4d<lon>` tail tried at one position: the latitude ends at the first `!`, the longitude takes the longest `!`-free run, and `None` only when no tail matches there |
| ListingReference.LastTail | index.ts:94 | greedy `.+`: among the tail positions up to the line end, the rightmost one with a matching tail is taken, and none further right has one |
| ListingReference.LastId | index.ts:94 | greedy id group at one `!1s`: the result is a match that precedes, in backtracking order, every other match at that start whose id is no longer; `None` only when every match there has a longer id |
| ListingReference.FirstMatchFrom | index.ts:94-97 | leftmost start: the match found precedes every match starting at or after `p`; `None` only when every match starts before `p` |
| ListingReference.FirstMatch | index.ts:94-97 | a match is found exactly when the pattern matches somewhere, and it is the one a backtracking engine reports first |
| ListingReference.FirstMatchUnique | index.ts:95-108 | at most one match comes first, so the three separate runs of the pattern agree |
| ListingReference.Captures | index.ts:94 | the three groups of any match are present, non-empty and free of `!` |
| ListingReference.Extract | index.ts:95-108 | a null `href` gives `""` for all three fields; otherwise the three fields are `undefined` together or present together |
| ListingReference.ExtractMatched | index.ts:95-108 | a matched `href` yields exactly the groups of the first match |
| ListingReference.ExtractUnmatched | index.ts:95-108 | all three fields are `undefined` if and only if the pattern does not match |
| ListingReference.ExtractGroupsWellFormed | index.ts:94-108 | on a matched `href` the id, latitude and longitude are all non-empty and contain no `!` |
| ListingReference.ExtractFirstMatch | index.ts:95-108 | the groups of the first match, named by their slices, are the fields extracted |
| ListingReferenceFacts.FirstMatchByLayout | index.ts:94 | a match with no earlier `!1s`, no later `!3d`, the longest id (or one character shorter when `!3d` follows it) and the longest longitude is the first match |
| ListingReferenceFacts.PlaceLinkYieldsFields | index.ts:93-108 | a link `pre!1s<id><!…>!3d<lat>!4d<lon><post>` with no earlier `!1s` and no later `!3d` yields exactly `id`, `lat` and `lon` |
| ListingReferenceFacts.IdAdjacentToLatitudeLosesLastChar | index.ts:94 | `pre!1s<id>!3d<lat>!4d<lon>post`, with no `!1s` in `pre`, `post` empty or starting a new `!` component, and no `!3d` in `post`, yields the id without its last character, because `.+` must take one |
| ListingReferenceFacts.OneCharIdAdjacentToLatitudeDoesNotMatch | index.ts:94-108 | the bare string `!1s<c>!3d<lat>!4d<lon>`, a one-character id directly before the only `!3d`, does not match, and all three fields are `undefined` |
| ListingReferenceFacts.ExamplePlaceLink | index.ts:93-108 | `/maps/place/Monas/data=!1sX:Y!8m2!3d-6.1!4d106.8!16s` yields `X:Y`, `-6.1` and `106.8` |
| ListingReferenceFacts.ExampleAdjacentLatitude | index.ts:93-108 | `!1sABC123!3d-6.175!4d106.827` yields id `ABC12` and the two coordinates whole |
| ListingReferenceFacts.ExampleAdjacentLatitudeInLink | index.ts:93-108 | `/data=!1sAB!3d1!4d2!16s` yields id `A`, latitude `1` and longitude `2` |
| ListingReferenceFacts.ExampleLaterTailKeepsWholeId | index.ts:93-108 | with a second `!3d…!4d…` after an adjacent one, `!1sABC!3d1!4d2!3d5!4d6` gives `ABC`, `5` and `6`, and `!1sA!3d1!4d2!3d5!4d6` gives `A`, `5` and `6` |
| ScrollLoop.Converge | index.ts:56-75 | the loop stops at a round meeting the break condition, with no earlier round meeting it, and runs through the trace exactly when no round meets it; the height compared in each later round is the one read in the round before |
| ScrollLoop.ConvergeStopsAtFirstBreak | index.ts:60-75 | the loop stops in round `k` if and only if `k` is the first round whose height equals the remembered one or whose count reaches `limit` |
| ScrollLoop.SameHeightStopsFirstRound | index.ts:56-73 | a panel whose height after the first scroll is the same as the one remembered ends the loop at once |
| ScrollLoop.NonPositiveLimitStopsFirstRound | index.ts:71 | with `limit <= 0` the first pass always breaks |
| ScrollLoop.GrowingPanelKeepsScrolling | index.ts:71-74 | while every read height is greater than the one before it and fewer than `limit` links are loaded, the loop does not stop |
| ScrollLoop.ChangingHeightKeepsScrolling | index.ts:71-74 | while every read height differs from the one remembered, shrinking included, and fewer than `limit` links are loaded, the loop does not stop |
| ScrollLoop.ShrinkingPanelExample | index.ts:71-74 | a first read of 900 after 1000, with 0 of 10 links, does not stop the loop |
| ScrollLoop.StopIgnoresLaterRounds | index.ts:71-73 | rounds after the one where the loop breaks never affect the outcome |
| ScrollLoop.ExhaustedResumes | index.ts:60-75 | a trace the loop survives can be continued from the last height read, and a later stop is counted after the rounds already passed |
| Coercion.DigitsOf | index.ts:185 | the result holds only digits and is no longer than the input; it is the input itself for an all-digit text and empty for a digit-free one |
| Coercion.DigitsOfConcat | index.ts:185 | removing non-digits works piece by piece, so the digits keep their order |
| Coercion.DigitsOfChar | index.ts:185 | a single character is kept exactly when it is a digit |
| Coercion.DecimalValue | index.ts:185 | a string of `n` digits reads as a number below `10^n` |
| Coercion.LeadingZeroIgnored | index.ts:185 | a leading zero does not change the number read |
| Coercion.DecimalRoundTrip | index.ts:185 | reading back the decimal rendering of a count gives the count |
| Coercion.ReviewCount | index.ts:185 | absent text is an error, and present text never is; any present text reads as the decimal value of its digits taken in order, so an all-digit text reads as itself and a digit-free text as 0 |
| Coercion.ReviewCountIgnoresDecoration | index.ts:185 | a count with digit-free text around it reads back as the count |
| Coercion.GroupedCount | index.ts:185 | a count with a group separator, with any digit-free text before and after it, reads as the digits on both sides run together |
| Coercion.ExampleGroupedCount | index.ts:185 | `"1.234 reviews"` and `"(1.234)"` both read as 1234 |
| Coercion.ReplaceFirstComma | index.ts:123 | the length is kept, the first comma becomes `.`, and every other position is unchanged |
| Coercion.ReplaceFirstCommaSplit | index.ts:123 | `a + "," + b` with no comma in `a` becomes `a + "." + b`, so later commas stay |
| Coercion.ReplaceFirstCommaNoComma | index.ts:123 | a text without a comma is unchanged |
| Coercion.ReplaceFirstCommaCounts | index.ts:123 | a text with a comma loses exactly one comma and gains exactly one point |
| Coercion.NormaliseRating | index.ts:120-123 | absent text is an error, and present text never is; the length is kept, the first comma becomes `.`, every other position is unchanged, and a comma-free text is unchanged |
| Coercion.ExampleCommaRating | index.ts:123 | `"4,5"` becomes `"4.5"` |
| Scraper.OrEmpty | index.ts:189-190 | the result is empty exactly when the text is missing or empty, and otherwise it is the text |
| Scraper.AssembleItem | index.ts:117-192 | the item fails exactly when its rating or review text is absent, and the rating is checked first; a record gets `position = i + 1` and carries the `href`, title, type, address, hours and services as read; a null `href` gives three empty fields |
| Scraper.AssembledFields | index.ts:175-192 | a record's rating, review count and listing reference are the coercions and the extraction applied to what was read; phone and website are the panel's texts, or `""` when missing |
| Scraper.ItemAt | index.ts:89-92 | an index within the result links yields what assembling that link gives; an index fails with a missing link exactly when it is past the last result link; any error names its own index |
| Scraper.RecordsOfPrefixStep | index.ts:175-192 | pushing the record of the next index extends the list of records gathered so far |
| Scraper.GettingData | index.ts:84-196 | the loop returns one record per index below `limit`, in order, or the error of the first index below `limit` that throws, with every earlier index yielding a record |
| Scraper.GatheredExcludesFailure | index.ts:86-196 | records come back only when no index below `limit` throws, and then no first failure exists |
| Scraper.NoFailureGathers | index.ts:86-196 | when no index below `limit` throws, the records of those indices are gathered |
| Scraper.FailureHasFirst | index.ts:86-196 | when some index below `limit` throws, a first throwing index exists, with records at every index before it |
| Scraper.GatheredFromLinks | index.ts:86-192 | gathered record `i` is the one assembled from result link `i`, so records follow the order of the links |
| Scraper.GatheredPositions | index.ts:179 | gathered records are numbered 1, 2, ... in list order |
| Scraper.GatheredUnique | index.ts:86-196 | the records gathered are fully determined by the result links and `limit` |
| Scraper.TooFewLinksFails | index.ts:86-92 | a `limit` above the number of result links never returns records |
| Scraper.MissingHandleIsPastLastLink | index.ts:89-92 | a missing result link is only ever reported for the index just past the last link |

## Left out

- Browser session, navigation, clicks and waits (`waitForNavigation`, `waitForNetworkIdle`, `waitForSelector`, `delay`). These are I/O and timing. Every wait is assumed to complete, and a timeout is not modelled.
- DOM queries for the title, type, address, phone, website, hours and services. These are calls into the page. The texts they return are inputs, read through optional chaining as `Option`.
- The "About" tab click at index.ts:156-157 is not awaited. Its effect on which services are read is not modelled, and the services read are an input.
- `prompt`, `dotenv`, the search URL, `fs.writeFile`, the console messages, the progress line and the catch-all in `main`. These are configuration, I/O and output.
- ScrollLoop.Converge: the source loop has no cap and may scroll forever. The model reads a finite trace, and `Exhausted` means the loop had not stopped when the trace ran out.
- Coercion.NormaliseRating: stops at the string handed to `Number`. The floating-point parse is not modelled, so the record keeps the normalised text.
- Coercion.ReviewCount: the count is an unbounded natural. JavaScript's rounding of counts above 2^53 is not modelled, nor is a run of more than about 309 digits, which `Number` reads as `Infinity` and `JSON.stringify` writes as `null`.
- ListingReference.Extract: a `char` is a Unicode scalar value, while JavaScript matches UTF-16 code units. A character outside the Basic Multilingual Plane at the end of an id directly before `!3d` is dropped whole by the model, where JavaScript drops only its low surrogate and keeps half a pair (`!1sA😀!3d1!4d2` gives the id `A\uD83D` in JavaScript and `A` in the model). With a single such character as the whole id, JavaScript still matches, with the high surrogate as id, where the model finds no match: ListingReferenceFacts.OneCharIdAdjacentToLatitudeDoesNotMatch holds of the model only (`!1s😀!3d1!4d2`).
- ScrollLoop.Converge: `limit` is an integer. `Number(limit)`, computed at index.ts:234-235 and compared at index.ts:71, could be fractional or `NaN`, and a `NaN` limit never meets the count condition, so only the height condition can stop such a loop.
- Scraper.GettingData: `limit` is an integer. The source's `Number(limit)` could also be fractional or `NaN`.
- Scraper.AssembleItem: JSON serialisation of the record is not modelled. That includes `JSON.stringify` dropping `undefined` fields.

=== FILE: coercion.dfy ===
/**
  The two text-to-number coercions of the detail panel.

  The review count (index.ts:185) drops every character that is not an
  ASCII digit and reads what is left as a decimal number; the empty string
  reads as 0. The rating (index.ts:123) has its first comma turned into a
  decimal point before `Number` parses it. Both texts come from an
  optional-chained `textContent`, so they may be `undefined`, and calling
  `replace` on `undefined` throws a `TypeError`.
 */
module Coercion {
  import opened Outcomes

  /** The failure of reading a property of `undefined`. */
  datatype Fault = TypeError

  predicate IsDigit(c: char)
  {
    '0' <= c <= '9'
  }

  predicate AllDigits(s: string)
  {
    forall i :: 0 <= i < |s| ==> IsDigit(s[i])
  }

  /** `s` with every character outside `[0-9]` removed (the global class replace). */
  function DigitsOf(s: string): (r: string)
    ensures AllDigits(r)
    ensures |r| <= |s|
    ensures AllDigits(s) ==> r == s
    ensures (forall i :: 0 <= i < |s| ==> !IsDigit(s[i])) ==> r == []
  {
    if |s| == 0 then []
    else if IsDigit(s[|s| - 1]) then DigitsOf(s[..|s| - 1]) + [s[|s| - 1]]
    else DigitsOf(s[..|s| - 1])
  }

  /** Removal works piece by piece, so the digits keep their order. */
  lemma {:induction false} DigitsOfConcat(a: string, b: string)
    ensures DigitsOf(a + b) == DigitsOf(a) + DigitsOf(b)
    decreases |b|
  {
    if |b| == 0 {
      assert a + b == a;
    } else {
      assert (a + b)[..|a + b| - 1] == a + b[..|b| - 1];
      DigitsOfConcat(a, b[..|b| - 1]);
    }
  }

  /** A single character survives exactly when it is a digit. */
  lemma DigitsOfChar(c: char)
    ensures DigitsOf([c]) == if IsDigit(c) then [c] else []
  {
    assert [c][..0] == [];
  }

  function DigitValue(c: char): (d: nat)
    requires IsDigit(c)
    ensures d < 10
  {
    (c as int) - ('0' as int)
  }

  /** `Number` applied to a string of decimal digits; the empty string gives 0. */
  function DecimalValue(s: string): (n: nat)
    requires AllDigits(s)
    ensures n < Pow10(|s|)
  {
    if |s| == 0 then 0
    else 10 * DecimalValue(s[..|s| - 1]) + DigitValue(s[|s| - 1])
  }

  function Pow10(k: nat): (p: nat)
    ensures p > 0
  {
    if k == 0 then 1 else 10 * Pow10(k - 1)
  }

  /** Leading zeros do not change the value. */
  lemma {:induction false} LeadingZeroIgnored(s: string)
    requires AllDigits(s)
    ensures DecimalValue(['0'] + s) == DecimalValue(s)
    decreases |s|
  {
    if |s| > 0 {
      assert (['0'] + s)[..|['0'] + s| - 1] == ['0'] + s[..|s| - 1];
      LeadingZeroIgnored(s[..|s| - 1]);
    } else {
      assert ['0'] + s == ['0'];
    }
  }

  /** The shortest decimal rendering of `n`: no leading zero, and `"0"` for zero. */
  function DecimalString(n: nat): (s: string)
    ensures |s| > 0 && AllDigits(s)
    ensures |s| > 1 ==> s[0] != '0'
    decreases n
  {
    if n < 10 then [('0' as int + n) as char]
    else DecimalString(n / 10) + [('0' as int + n % 10) as char]
  }

  /** Reading back a rendered count gives the count. */
  lemma {:induction false} DecimalRoundTrip(n: nat)
    ensures DecimalValue(DecimalString(n)) == n
    decreases n
  {
    var s := DecimalString(n);
    if n >= 10 {
      DecimalRoundTrip(n / 10);
      assert s[..|s| - 1] == DecimalString(n / 10);
    }
  }

  /**
    The review count shown as `text`: the decimal value of its digits, in
    order. Absent text throws.
   */
  function ReviewCount(text: Option<string>): (r: Result<nat, Fault>)
    ensures r.Err? <==> text.None?
    ensures text.Some? && AllDigits(text.value) ==> r == Ok(DecimalValue(text.value))
    ensures text.Some? && (forall i :: 0 <= i < |text.value| ==> !IsDigit(text.value[i])) ==> r == Ok(0)
    ensures text.Some? ==> r == Ok(DecimalValue(DigitsOf(text.value)))
  {
    match text
    case None => Err(TypeError)
    case Some(t) => Ok(DecimalValue(DigitsOf(t)))
  }

  /**
    Separators and words around a count are ignored: a count rendered with
    `prefix` before it and `suffix` after it reads back as the count, as
    long as neither holds a digit.
   */
  lemma ReviewCountIgnoresDecoration(prefix: string, n: nat, suffix: string)
    requires forall i :: 0 <= i < |prefix| ==> !IsDigit(prefix[i])
    requires forall i :: 0 <= i < |suffix| ==> !IsDigit(suffix[i])
    ensures ReviewCount(Some(prefix + DecimalString(n) + suffix)) == Ok(n)
  {
    var d := DecimalString(n);
    DigitsOfConcat(prefix + d, suffix);
    DigitsOfConcat(prefix, d);
    assert DigitsOf(prefix) == [] && DigitsOf(suffix) == [] && DigitsOf(d) == d;
    assert DigitsOf(prefix + d + suffix) == d;
    DecimalRoundTrip(n);
  }

  /**
    A count written with a group separator reads as the digits on both
    sides run together, whatever digit-free text comes before and after it.
   */
  lemma GroupedCount(before: string, high: string, separator: char, low: string, after: string)
    requires forall i :: 0 <= i < |before| ==> !IsDigit(before[i])
    requires AllDigits(high) && AllDigits(low) && !IsDigit(separator)
    requires forall i :: 0 <= i < |after| ==> !IsDigit(after[i])
    ensures ReviewCount(Some(before + high + [separator] + low + after)) == Ok(DecimalValue(high + low))
  {
    var upToHigh := before + high;
    DigitsOfConcat(before, high);
    assert DigitsOf(upToHigh) == high;
    var upToSeparator := upToHigh + [separator];
    DigitsOfConcat(upToHigh, [separator]);
    DigitsOfChar(separator);
    assert DigitsOf(upToSeparator) == high;
    var upToLow := upToSeparator + low;
    DigitsOfConcat(upToSeparator, low);
    assert DigitsOf(upToLow) == high + low;
    DigitsOfConcat(upToLow, after);
    assert DigitsOf(upToLow + after) == high + low;
  }

  /** `"1.234 reviews"` and `"(1.234)"` both read as 1234. */
  lemma ExampleGroupedCount()
    ensures ReviewCount(Some("1.234 reviews")) == Ok(1234)
    ensures ReviewCount(Some("(1.234)")) == Ok(1234)
  {
    assert "1.234 reviews" == "" + "1" + ['.'] + "234" + " reviews";
    GroupedCount("", "1", '.', "234", " reviews");
    assert "(1.234)" == "(" + "1" + ['.'] + "234" + ")";
    GroupedCount("(", "1", '.', "234", ")");
    assert "1" + "234" == "1234";
    DecimalValueOf1234();
  }

  lemma DecimalValueOf1234()
    ensures DecimalValue("1234") == 1234
  {
    assert "1234"[..3] == "123" && "123"[..2] == "12" && "12"[..1] == "1" && "1"[..0] == [];
  }

  /** The text `s` with its first comma, if any, replaced by a decimal point. */
  function ReplaceFirstComma(s: string): (r: string)
    ensures |r| == |s|
    ensures forall i :: 0 <= i < |s| && s[i] == ',' && ',' !in s[..i] ==> r[i] == '.'
    ensures forall i :: 0 <= i < |s| && !(s[i] == ',' && ',' !in s[..i]) ==> r[i] == s[i]
  {
    if |s| == 0 then []
    else if s[0] == ',' then ['.'] + s[1..]
    else
      var rest := ReplaceFirstComma(s[1..]);
      assert forall i :: 1 <= i < |s| ==> s[1..][..i - 1] == s[..i][1..] && s[..i] == [s[0]] + s[1..][..i - 1];
      [s[0]] + rest
  }

  /**
    The replacement as a split: the text up to the first comma, a point,
    and the rest left alone — later commas included.
   */
  lemma ReplaceFirstCommaSplit(a: string, b: string)
    requires ',' !in a
    ensures ReplaceFirstComma(a + [','] + b) == a + ['.'] + b
  {
    var s, r := a + [','] + b, ReplaceFirstComma(a + [','] + b);
    assert s[..|a|] == a;
    forall i | 0 <= i < |s|
      ensures r[i] == (a + ['.'] + b)[i]
    {
      if i > |a| {
        assert s[..i][|a|] == ',';
      }
    }
  }

  /** Text without a comma is left as it is. */
  lemma ReplaceFirstCommaNoComma(s: string)
    requires ',' !in s
    ensures ReplaceFirstComma(s) == s
  {
  }

  /** Exactly one comma disappears, and it becomes the only point added. */
  lemma ReplaceFirstCommaCounts(s: string)
    requires ',' in s
    ensures multiset(ReplaceFirstComma(s))[','] == multiset(s)[','] - 1
    ensures multiset(ReplaceFirstComma(s))['.'] == multiset(s)['.'] + 1
  {
    var i := FirstComma(s);
    var a, b := s[..i], s[i + 1..];
    assert s == a + [','] + b;
    ReplaceFirstCommaSplit(a, b);
    SwapCounts(a, b);
  }

  lemma SwapCounts(a: string, b: string)
    ensures multiset(a + ['.'] + b)[','] == multiset(a + [','] + b)[','] - 1
    ensures multiset(a + ['.'] + b)['.'] == multiset(a + [','] + b)['.'] + 1
  {
    assert multiset(a + ['.'] + b) == multiset(a) + multiset{'.'} + multiset(b);
    assert multiset(a + [','] + b) == multiset(a) + multiset{','} + multiset(b);
  }

  /** The position of the first comma of `s`. */
  lemma {:induction false} FirstComma(s: string) returns (i: nat)
    requires ',' in s
    ensures i < |s| && s[i] == ',' && ',' !in s[..i]
  {
    if s[0] == ',' {
      i := 0;
    } else {
      assert ',' in s[1..];
      var k := FirstComma(s[1..]);
      i := k + 1;
      assert s[..i] == [s[0]] + s[1..][..k];
    }
  }

  /**
    The rating text made ready for `Number`: its first comma turned into a
    point. Absent text throws.
   */
  function NormaliseRating(text: Option<string>): (r: Result<string, Fault>)
    ensures r.Err? <==> text.None?
    ensures r.Ok? ==> |r.value| == |text.value|
    ensures r.Ok? ==> forall i :: 0 <= i < |text.value| && text.value[i] == ',' && ',' !in text.value[..i] ==>
                        r.value[i] == '.'
    ensures r.Ok? ==> forall i :: 0 <= i < |text.value| && !(text.value[i] == ',' && ',' !in text.value[..i]) ==>
                        r.value[i] == text.value[i]
    ensures r.Ok? && ',' !in text.value ==> r.value == text.value
  {
    match text
    case None => Err(TypeError)
    case Some(t) => Ok(ReplaceFirstComma(t))
  }

  /** A comma-decimal rating: `"4,5"` becomes `"4.5"`. */
  lemma ExampleCommaRating()
    ensures NormaliseRating(Some("4,5")) == Ok("4.5")
  {
    ReplaceFirstCommaSplit("4", "5");
    assert "4" + [','] + "5" == "4,5";
    assert "4" + ['.'] + "5" == "4.5";
  }
}

=== FILE: listing_reference.dfy ===
/**
  The listing-reference extractor of `gettingDataFromPage`.

  Each list item's `href` is matched against the fixed JavaScript pattern

      !1s(?<id>[^!]+).+!3d(?<latitude>[^!]+)!4d(?<longitude>[^!]+)

  and only the first match's three groups are kept. Instead of a general
  regular-expression engine the model has

  - a declarative description of every way the pattern can match
    (`IsMatch`), together with the order in which a backtracking engine
    tries them (`Precedes`), so that the match the engine reports is the
    one that precedes all others (`IsFirstMatch`); and
  - a hand-written scanner (`FirstMatch`) proved to find exactly that match.

  A string is a sequence of `char`, and a `char` is one Unicode scalar
  value, which `.` and `[^!]` each consume whole. For characters of the
  Basic Multilingual Plane this is one UTF-16 code unit, as in JavaScript.
 */
module ListingReference {
  import opened Outcomes

  /** The three literal markers of the pattern. */
  const ID_MARKER: string := "!1s"
  const LAT_MARKER: string := "!3d"
  const LON_MARKER: string := "!4d"

  /** The characters `.` refuses when the pattern has no `s` flag. */
  predicate IsLineTerminator(c: char) {
    c == '\n' || c == '\r' || c == '\U{2028}' || c == '\U{2029}'
  }

  /** The three-character `marker` occurs in `s` at index `i`. */
  predicate MarkerAt(s: string, i: nat, marker: string)
    requires |marker| == 3
  {
    i + 3 <= |s| && s[i] == marker[0] && s[i + 1] == marker[1] && s[i + 2] == marker[2]
  }

  /** `s[i..j]` can be consumed by `[^!]`: it holds no `!`. */
  ghost predicate NoBang(s: string, i: nat, j: nat)
    requires j <= |s|
  {
    forall t :: i <= t < j ==> s[t] != '!'
  }

  /** `s[i..j]` can be consumed by `.`: it holds no line terminator. */
  ghost predicate NoLineTerminator(s: string, i: nat, j: nat)
    requires j <= |s|
  {
    forall t :: i <= t < j ==> !IsLineTerminator(s[t])
  }

  /**
    One way for the pattern to match `s`, given by the indices where its
    pieces start and end:
      `!1s` at `open`, the id in `s[open + 3..idEnd]`,
      `.+` over `s[idEnd..mid]`,
      `!3d` at `mid`, the latitude in `s[mid + 3..latEnd]`,
      `!4d` at `latEnd`, the longitude in `s[latEnd + 3..lonEnd]`.
   */
  datatype Match = Match(open: nat, idEnd: nat, mid: nat, latEnd: nat, lonEnd: nat)

  /** `!3d<lat>!4d<lon>` matches `s` from `mid`, ending at `lonEnd`. */
  ghost predicate TailMatch(s: string, mid: nat, latEnd: nat, lonEnd: nat) {
    && mid + 3 < latEnd && latEnd + 3 < lonEnd <= |s|
    && MarkerAt(s, mid, LAT_MARKER) && NoBang(s, mid + 3, latEnd)
    && MarkerAt(s, latEnd, LON_MARKER) && NoBang(s, latEnd + 3, lonEnd)
  }

  /** Some `!3d<lat>!4d<lon>` matches `s` from `mid`. */
  ghost predicate HasTail(s: string, mid: nat) {
    exists latEnd: nat, lonEnd: nat :: TailMatch(s, mid, latEnd, lonEnd)
  }

  /** `m` is a way for the whole pattern to match `s`. */
  ghost predicate IsMatch(s: string, m: Match) {
    && m.open + 3 < m.idEnd < m.mid <= |s|
    && MarkerAt(s, m.open, ID_MARKER) && NoBang(s, m.open + 3, m.idEnd)
    && NoLineTerminator(s, m.idEnd, m.mid)
    && TailMatch(s, m.mid, m.latEnd, m.lonEnd)
  }

  /** The pattern matches `s` somewhere. */
  ghost predicate HasMatch(s: string) {
    exists m :: IsMatch(s, m)
  }

  /**
    A backtracking engine tries match `a` before match `b`: start positions
    left to right, and at one start every greedy quantifier longest first.
   */
  predicate Precedes(a: Match, b: Match) {
    || a.open < b.open
    || (a.open == b.open && a.idEnd > b.idEnd)
    || (a.open == b.open && a.idEnd == b.idEnd && a.mid > b.mid)
    || (a.open == b.open && a.idEnd == b.idEnd && a.mid == b.mid && a.latEnd > b.latEnd)
    || (a.open == b.open && a.idEnd == b.idEnd && a.mid == b.mid && a.latEnd == b.latEnd
        && a.lonEnd > b.lonEnd)
  }

  /** `m` is the match the engine reports: it is tried before every other match. */
  ghost predicate IsFirstMatch(s: string, m: Match) {
    IsMatch(s, m) && forall b :: IsMatch(s, b) && b != m ==> Precedes(m, b)
  }

  // ---------------------------------------------------------------------
  // The scanner
  // ---------------------------------------------------------------------

  /** Where the longest run of non-`!` characters starting at `i` ends. */
  function RunEnd(s: string, i: nat): (j: nat)
    requires i <= |s|
    ensures i <= j <= |s| && NoBang(s, i, j)
    ensures j == |s| || s[j] == '!'
    decreases |s| - i
  {
    if i < |s| && s[i] != '!' then RunEnd(s, i + 1) else i
  }

  /** Where the longest run of non-line-terminators starting at `i` ends. */
  function LineEnd(s: string, i: nat): (j: nat)
    requires i <= |s|
    ensures i <= j <= |s| && NoLineTerminator(s, i, j)
    ensures j == |s| || IsLineTerminator(s[j])
    decreases |s| - i
  {
    if i < |s| && !IsLineTerminator(s[i]) then LineEnd(s, i + 1) else i
  }

  /** A `!`-free stretch starting at `i` cannot reach past `RunEnd(s, i)`. */
  lemma RunEndIsLongest(s: string, i: nat, j: nat)
    requires i <= j <= |s| && NoBang(s, i, j)
    ensures j <= RunEnd(s, i)
    ensures j < |s| && s[j] == '!' ==> j == RunEnd(s, i)
  {
  }

  /** A stretch without line terminators starting at `i` ends by `LineEnd(s, i)`. */
  lemma LineEndIsLongest(s: string, i: nat, j: nat)
    requires i <= j <= |s|
    ensures NoLineTerminator(s, i, j) <==> j <= LineEnd(s, i)
  {
  }

  /**
    The coordinates tail tried at `mid`: its latitude end is forced (the
    first `!` after `!3d`) and its longitude takes the longest run.
   */
  function TailAt(s: string, mid: nat): (r: Option<(nat, nat)>)
    ensures r.Some? ==> TailMatch(s, mid, r.value.0, r.value.1)
    ensures r.Some? ==> forall latEnd: nat, lonEnd: nat :: TailMatch(s, mid, latEnd, lonEnd) ==>
                          latEnd == r.value.0 && lonEnd <= r.value.1
    ensures r.None? ==> !HasTail(s, mid)
  {
    if !MarkerAt(s, mid, LAT_MARKER) then None
    else
      var latEnd := RunEnd(s, mid + 3);
      if latEnd <= mid + 3 || !MarkerAt(s, latEnd, LON_MARKER) then
        TailAtFails(s, mid, latEnd);
        None
      else
        var lonEnd := RunEnd(s, latEnd + 3);
        TailAtFinds(s, mid, latEnd, lonEnd);
        if lonEnd <= latEnd + 3 then None else Some((latEnd, lonEnd))
  }

  lemma TailAtFails(s: string, mid: nat, latEnd: nat)
    requires mid + 3 <= |s| && latEnd == RunEnd(s, mid + 3)
    requires latEnd <= mid + 3 || !MarkerAt(s, latEnd, LON_MARKER)
    ensures !HasTail(s, mid)
  {
    if HasTail(s, mid) {
      var l: nat, n: nat :| TailMatch(s, mid, l, n);
      RunEndIsLongest(s, mid + 3, l);
    }
  }

  lemma TailAtFinds(s: string, mid: nat, latEnd: nat, lonEnd: nat)
    requires MarkerAt(s, mid, LAT_MARKER) && latEnd == RunEnd(s, mid + 3)
    requires latEnd > mid + 3 && MarkerAt(s, latEnd, LON_MARKER)
    requires lonEnd == RunEnd(s, latEnd + 3)
    ensures lonEnd <= latEnd + 3 ==> !HasTail(s, mid)
    ensures forall l: nat, n: nat :: TailMatch(s, mid, l, n) ==> l == latEnd && n <= lonEnd
  {
    forall l: nat, n: nat | TailMatch(s, mid, l, n)
      ensures l == latEnd && n <= lonEnd
    {
      RunEndIsLongest(s, mid + 3, l);
      RunEndIsLongest(s, latEnd + 3, n);
    }
  }

  /**
    The greedy `.+` after an id ending at `idEnd`: the tail positions
    `k`, `k - 1`, …, `idEnd + 1` are tried in turn and the first that works
    wins.
   */
  function LastTail(s: string, open: nat, idEnd: nat, k: nat): (r: Option<Match>)
    ensures r.Some? ==> r.value.open == open && r.value.idEnd == idEnd
    ensures r.Some? ==> idEnd < r.value.mid <= k
    ensures r.Some? ==> TailMatch(s, r.value.mid, r.value.latEnd, r.value.lonEnd)
    ensures r.Some? ==> forall l: nat, n: nat :: TailMatch(s, r.value.mid, l, n) ==>
                          l == r.value.latEnd && n <= r.value.lonEnd
    ensures r.Some? ==> forall mid: nat :: r.value.mid < mid <= k ==> !HasTail(s, mid)
    ensures r.None? ==> forall mid: nat :: idEnd < mid <= k ==> !HasTail(s, mid)
    decreases k
  {
    if k <= idEnd then None
    else
      match TailAt(s, k)
      case Some((latEnd, lonEnd)) => Some(Match(open, idEnd, k, latEnd, lonEnd))
      case None => LastTail(s, open, idEnd, k - 1)
  }

  /**
    The greedy id group at a `!1s` found at `open`: id ends `e`, `e - 1`, …,
    `open + 4` are tried in turn, each with the greedy `.+` that may not
    cross a line terminator.
   */
  function LastId(s: string, open: nat, e: nat): (r: Option<Match>)
    requires MarkerAt(s, open, ID_MARKER)
    requires open + 3 <= e <= |s| && NoBang(s, open + 3, e)
    ensures r.Some? ==> IsMatch(s, r.value) && r.value.open == open && r.value.idEnd <= e
    ensures r.Some? ==> forall b :: IsMatch(s, b) && b.open == open && b.idEnd <= e && b != r.value ==>
                          Precedes(r.value, b)
    ensures r.None? ==> forall b :: IsMatch(s, b) && b.open == open ==> b.idEnd > e
    decreases e
  {
    if e <= open + 3 then None
    else
      var lineEnd := LineEnd(s, e);
      match LastTail(s, open, e, lineEnd)
      case Some(m) =>
        LastIdFinds(s, m, lineEnd);
        Some(m)
      case None =>
        var r := LastId(s, open, e - 1);
        LastIdMisses(s, open, e, lineEnd);
        r
  }

  lemma LastIdFinds(s: string, m: Match, lineEnd: nat)
    requires MarkerAt(s, m.open, ID_MARKER) && m.open + 3 < m.idEnd <= |s|
    requires NoBang(s, m.open + 3, m.idEnd) && lineEnd == LineEnd(s, m.idEnd)
    requires m.idEnd < m.mid <= lineEnd && TailMatch(s, m.mid, m.latEnd, m.lonEnd)
    requires forall l: nat, n: nat :: TailMatch(s, m.mid, l, n) ==> l == m.latEnd && n <= m.lonEnd
    requires forall mid: nat :: m.mid < mid <= lineEnd ==> !HasTail(s, mid)
    ensures IsMatch(s, m)
    ensures forall b :: IsMatch(s, b) && b.open == m.open && b.idEnd <= m.idEnd && b != m ==>
              Precedes(m, b)
  {
    LineEndIsLongest(s, m.idEnd, m.mid);
    forall b | IsMatch(s, b) && b.open == m.open && b.idEnd <= m.idEnd && b != m
      ensures Precedes(m, b)
    {
      if b.idEnd == m.idEnd {
        LineEndIsLongest(s, b.idEnd, b.mid);
        assert HasTail(s, b.mid);
      }
    }
  }

  lemma LastIdMisses(s: string, open: nat, e: nat, lineEnd: nat)
    requires open + 3 < e <= |s| && lineEnd == LineEnd(s, e)
    requires forall mid: nat :: e < mid <= lineEnd ==> !HasTail(s, mid)
    ensures forall b :: IsMatch(s, b) && b.open == open ==> b.idEnd != e
  {
    forall b | IsMatch(s, b) && b.open == open && b.idEnd == e
      ensures false
    {
      LineEndIsLongest(s, e, b.mid);
      assert HasTail(s, b.mid);
    }
  }

  /** The leftmost start at or after `p` from which the pattern matches. */
  function FirstMatchFrom(s: string, p: nat): (r: Option<Match>)
    ensures r.Some? ==> IsMatch(s, r.value) && r.value.open >= p
    ensures r.Some? ==> forall b :: IsMatch(s, b) && b.open >= p && b != r.value ==> Precedes(r.value, b)
    ensures r.None? ==> forall b :: IsMatch(s, b) ==> b.open < p
    decreases |s| - p
  {
    if |s| < p + 3 then None
    else if MarkerAt(s, p, ID_MARKER) then
      var idRun := RunEnd(s, p + 3);
      match LastId(s, p, idRun)
      case Some(m) => Some(m)
      case None =>
        NoMatchBeyondRun(s, p, idRun);
        FirstMatchFrom(s, p + 1)
    else
      FirstMatchFrom(s, p + 1)
  }

  lemma NoMatchBeyondRun(s: string, open: nat, idRun: nat)
    requires open + 3 <= |s| && idRun == RunEnd(s, open + 3)
    ensures forall b :: IsMatch(s, b) && b.open == open ==> b.idEnd <= idRun
  {
    forall b | IsMatch(s, b) && b.open == open
      ensures b.idEnd <= idRun
    {
      RunEndIsLongest(s, open + 3, b.idEnd);
    }
  }

  /** The match a backtracking engine reports for `s`, if any. */
  function FirstMatch(s: string): (r: Option<Match>)
    ensures r.Some? <==> HasMatch(s)
    ensures r.Some? ==> IsFirstMatch(s, r.value)
  {
    FirstMatchFrom(s, 0)
  }

  /** Backtracking order is a strict order, so at most one match comes first. */
  lemma FirstMatchUnique(s: string, a: Match, b: Match)
    requires IsFirstMatch(s, a) && IsFirstMatch(s, b)
    ensures a == b
  {
  }

  // ---------------------------------------------------------------------
  // The extracted reference
  // ---------------------------------------------------------------------

  /**
    `dataId` and the two coordinates of a listing. `None` is JavaScript's
    `undefined` (an `href` the pattern does not match); a missing `href`
    gives three empty strings instead.
   */
  datatype Reference = Reference(dataId: Option<string>, latitude: Option<string>, longitude: Option<string>)

  /** The three named groups of match `m`. */
  function Captures(s: string, m: Match): (r: Reference)
    requires IsMatch(s, m)
    ensures r.dataId.Some? && r.latitude.Some? && r.longitude.Some?
    ensures |r.dataId.value| > 0 && '!' !in r.dataId.value
    ensures |r.latitude.value| > 0 && '!' !in r.latitude.value
    ensures |r.longitude.value| > 0 && '!' !in r.longitude.value
  {
    Reference(Some(s[m.open + 3..m.idEnd]), Some(s[m.mid + 3..m.latEnd]), Some(s[m.latEnd + 3..m.lonEnd]))
  }

  /**
    The listing reference for an item whose `href` attribute is `href`
    (`None` when the attribute is null). The source runs the pattern once
    per field; since matching is a pure function of the string, all three
    fields come from one first match.
   */
  function Extract(href: Option<string>): (r: Reference)
    ensures href.None? ==> r == Reference(Some(""), Some(""), Some(""))
    ensures r.dataId.None? <==> r.latitude.None?
    ensures r.dataId.None? <==> r.longitude.None?
  {
    match href
    case None => Reference(Some(""), Some(""), Some(""))
    case Some(url) =>
      match FirstMatch(url)
      case None => Reference(None, None, None)
      case Some(m) => Captures(url, m)
  }

  /**
    An `href` the pattern matches yields the groups of the match a
    backtracking engine reports first.
   */
  lemma ExtractMatched(s: string, m: Match)
    requires IsFirstMatch(s, m)
    ensures Extract(Some(s)) == Captures(s, m)
  {
    FirstMatchUnique(s, FirstMatch(s).value, m);
  }

  /**
    An `href` yields three `undefined` fields exactly when the pattern does
    not match it; matching never throws.
   */
  lemma ExtractUnmatched(s: string)
    ensures Extract(Some(s)) == Reference(None, None, None) <==> !HasMatch(s)
  {
  }

  /** A matched `href` yields an id and coordinates that are non-empty and free of `!`. */
  lemma ExtractGroupsWellFormed(s: string)
    requires HasMatch(s)
    ensures var r := Extract(Some(s));
      && r.dataId.Some? && |r.dataId.value| > 0 && '!' !in r.dataId.value
      && r.latitude.Some? && |r.latitude.value| > 0 && '!' !in r.latitude.value
      && r.longitude.Some? && |r.longitude.value| > 0 && '!' !in r.longitude.value
  {
  }

  /** `ExtractMatched`, with the groups named. */
  lemma ExtractFirstMatch(s: string, m: Match, id: string, lat: string, lon: string)
    requires IsFirstMatch(s, m)
    requires s[m.open + 3..m.idEnd] == id && s[m.mid + 3..m.latEnd] == lat && s[m.latEnd + 3..m.lonEnd] == lon
    ensures Extract(Some(s)) == Reference(Some(id), Some(lat), Some(lon))
  {
    ExtractMatched(s, m);
    CapturesNamed(s, m, id, lat, lon);
  }

  lemma CapturesNamed(s: string, m: Match, id: string, lat: string, lon: string)
    requires IsMatch(s, m)
    requires s[m.open + 3..m.idEnd] == id && s[m.mid + 3..m.latEnd] == lat && s[m.latEnd + 3..m.lonEnd] == lon
    ensures Captures(s, m) == Reference(Some(id), Some(lat), Some(lon))
  {
  }
}

=== FILE: listing_reference_facts.dfy ===
/**
  What the listing-reference extractor yields on the shapes of `href` the
  scraper meets, including the case where the pattern's `.+` steals the
  last character of the id.
 */
module ListingReferenceFacts {
  import opened Outcomes
  import opened ListingReference

  /**
    A match is the first one when no `!1s` starts before it, its id is the
    whole `!`-free run after `!1s` (or that run less the one character the
    `.+` in front of an adjacent `!3d` needs), no `!3d` starts after its
    own, and its longitude runs up to the next `!`.
   */
  lemma FirstMatchByLayout(s: string, m0: Match)
    requires IsMatch(s, m0)
    requires forall p: nat :: p < m0.open ==> !MarkerAt(s, p, ID_MARKER)
    requires forall k: nat :: m0.mid < k ==> !MarkerAt(s, k, LAT_MARKER)
    requires m0.idEnd == RunEnd(s, m0.open + 3) || m0.idEnd + 1 == m0.mid == RunEnd(s, m0.open + 3)
    requires m0.lonEnd == RunEnd(s, m0.latEnd + 3)
    ensures IsFirstMatch(s, m0)
  {
    forall b | IsMatch(s, b) && b != m0
      ensures Precedes(m0, b)
    {
      if b.open == m0.open {
        RunEndIsLongest(s, b.open + 3, b.idEnd);
        if b.idEnd == m0.idEnd && b.mid == m0.mid {
          RunEndIsLongest(s, b.mid + 3, b.latEnd);
          RunEndIsLongest(s, m0.mid + 3, m0.latEnd);
          RunEndIsLongest(s, b.latEnd + 3, b.lonEnd);
        }
      }
    }
  }

  /**
    A place link: `pre` holds no `!1s`, so `!1s<id>` is the first id
    component; the coordinates come after at least one `extra` component,
    and an optional `post` component follows them.
   */
  function PlaceLink(pre: string, id: string, extra: string, lat: string, lon: string, post: string): string {
    (pre + ID_MARKER + id + extra) + (LAT_MARKER + lat + LON_MARKER + lon + post)
  }

  /**
    The usual place link: a prefix without `!1s`, then `!1s<id>`, at least
    one further `!`-component before `!3d<lat>!4d<lon>`, and an optional
    trailing `!`-component without `!3d`. The id, latitude and longitude
    come back whole.
   */
  lemma PlaceLinkYieldsFields(pre: string, id: string, extra: string, lat: string, lon: string, post: string)
    requires forall p: nat :: !MarkerAt(pre, p, ID_MARKER)
    requires |id| > 0 && '!' !in id
    requires |extra| > 0 && extra[0] == '!'
    requires forall t :: 0 <= t < |extra| ==> !IsLineTerminator(extra[t])
    requires |lat| > 0 && '!' !in lat && |lon| > 0 && '!' !in lon
    requires post == [] || post[0] == '!'
    requires forall p: nat :: !MarkerAt(post, p, LAT_MARKER)
    ensures Extract(Some(PlaceLink(pre, id, extra, lat, lon, post)))
            == Reference(Some(id), Some(lat), Some(lon))
  {
    var s := PlaceLink(pre, id, extra, lat, lon, post);
    var m0 := PlaceLinkLayout(pre, id, extra, lat, lon, post);
    ExtractFirstMatch(s, m0, id, lat, lon);
  }

  /** The match the engine reports on a place link, and its pieces. */
  lemma PlaceLinkLayout(pre: string, id: string, extra: string, lat: string, lon: string, post: string)
    returns (m0: Match)
    requires forall p: nat :: !MarkerAt(pre, p, ID_MARKER)
    requires |id| > 0 && '!' !in id
    requires |extra| > 0 && extra[0] == '!'
    requires forall t :: 0 <= t < |extra| ==> !IsLineTerminator(extra[t])
    requires |lat| > 0 && '!' !in lat && |lon| > 0 && '!' !in lon
    requires post == [] || post[0] == '!'
    requires forall p: nat :: !MarkerAt(post, p, LAT_MARKER)
    ensures var s := PlaceLink(pre, id, extra, lat, lon, post);
      && IsFirstMatch(s, m0)
      && s[m0.open + 3..m0.idEnd] == id
      && s[m0.mid + 3..m0.latEnd] == lat
      && s[m0.latEnd + 3..m0.lonEnd] == lon
  {
    var head := pre + ID_MARKER + id + extra;
    var tail := LAT_MARKER + lat + LON_MARKER + lon + post;
    HeadLayout(pre, id, extra);
    var latEnd, lonEnd := TailLayout(lat, lon, post);
    m0 := JoinLayout(head, tail, |pre|, |pre| + 3 + |id|, latEnd, lonEnd);
    FirstMatchByLayout(head + tail, m0);
  }

  /** Joins what `HeadLayout` and `TailLayout` say about the two halves of a place link. */
  lemma JoinLayout(head: string, tail: string, P: nat, E: nat, latEnd: nat, lonEnd: nat) returns (m0: Match)
    requires P + 3 < E < |head|
    requires forall p: nat :: p < P ==> !MarkerAt(head, p, ID_MARKER)
    requires MarkerAt(head, P, ID_MARKER)
    requires NoBang(head, P + 3, E) && head[E] == '!'
    requires NoLineTerminator(head, E, |head|)
    requires TailMatch(tail, 0, latEnd, lonEnd)
    requires lonEnd == |tail| || tail[lonEnd] == '!'
    requires forall k: nat :: 0 < k ==> !MarkerAt(tail, k, LAT_MARKER)
    ensures var s := head + tail;
      && m0 == Match(P, E, |head|, |head| + latEnd, |head| + lonEnd)
      && IsMatch(s, m0)
      && (forall p: nat :: p < m0.open ==> !MarkerAt(s, p, ID_MARKER))
      && (forall k: nat :: m0.mid < k ==> !MarkerAt(s, k, LAT_MARKER))
      && m0.idEnd == RunEnd(s, m0.open + 3)
      && m0.lonEnd == RunEnd(s, m0.latEnd + 3)
      && s[m0.open + 3..m0.idEnd] == head[P + 3..E]
      && s[m0.mid + 3..m0.latEnd] == tail[3..latEnd]
      && s[m0.latEnd + 3..m0.lonEnd] == tail[latEnd + 3..lonEnd]
  {
    var s := head + tail;
    var M := |head|;
    m0 := Match(P, E, M, M + latEnd, M + lonEnd);
    JoinHead(head, tail, P, E);
    JoinTail(head, tail, latEnd, lonEnd);
  }

  /** `head + tail` looks like `head` before `|head|`. */
  lemma JoinHead(head: string, tail: string, P: nat, E: nat)
    requires P + 3 < E < |head|
    requires forall p: nat :: p < P ==> !MarkerAt(head, p, ID_MARKER)
    requires MarkerAt(head, P, ID_MARKER)
    requires NoBang(head, P + 3, E) && head[E] == '!'
    requires NoLineTerminator(head, E, |head|)
    ensures var s := head + tail;
      && (forall p: nat :: p < P ==> !MarkerAt(s, p, ID_MARKER))
      && MarkerAt(s, P, ID_MARKER)
      && NoBang(s, P + 3, E) && NoLineTerminator(s, E, |head|)
      && E == RunEnd(s, P + 3)
      && s[P + 3..E] == head[P + 3..E]
  {
    var s := head + tail;
    assert forall t :: 0 <= t < |head| ==> s[t] == head[t];
    forall p: nat | p < P
      ensures !MarkerAt(s, p, ID_MARKER)
    {
      assert !MarkerAt(head, p, ID_MARKER);
    }
    RunEndIsLongest(s, P + 3, E);
    assert s[P + 3..E] == head[P + 3..E];
  }

  /** `head + tail` looks like `tail` from `|head|` on. */
  lemma JoinTail(head: string, tail: string, latEnd: nat, lonEnd: nat)
    requires TailMatch(tail, 0, latEnd, lonEnd)
    requires lonEnd == |tail| || tail[lonEnd] == '!'
    requires forall k: nat :: 0 < k ==> !MarkerAt(tail, k, LAT_MARKER)
    ensures var s, M := head + tail, |head|;
      && TailMatch(s, M, M + latEnd, M + lonEnd)
      && (forall k: nat :: M < k ==> !MarkerAt(s, k, LAT_MARKER))
      && M + lonEnd == RunEnd(s, M + latEnd + 3)
      && s[M + 3..M + latEnd] == tail[3..latEnd]
      && s[M + latEnd + 3..M + lonEnd] == tail[latEnd + 3..lonEnd]
  {
    var s, M := head + tail, |head|;
    assert forall t :: M <= t < |s| ==> s[t] == tail[t - M];
    forall k: nat | M < k
      ensures !MarkerAt(s, k, LAT_MARKER)
    {
      assert !MarkerAt(tail, k - M, LAT_MARKER);
    }
    RunEndIsLongest(s, M + latEnd + 3, M + lonEnd);
    assert s[M + 3..M + latEnd] == tail[3..latEnd];
    assert s[M + latEnd + 3..M + lonEnd] == tail[latEnd + 3..lonEnd];
  }

  /** The part of a place link up to its `!3d`: where the id starts and stops. */
  lemma HeadLayout(pre: string, id: string, extra: string)
    requires forall p: nat :: !MarkerAt(pre, p, ID_MARKER)
    requires |id| > 0 && '!' !in id
    requires |extra| > 0 && extra[0] == '!'
    requires forall t :: 0 <= t < |extra| ==> !IsLineTerminator(extra[t])
    ensures var head := pre + ID_MARKER + id + extra;
      var P, E := |pre|, |pre| + 3 + |id|;
      && |head| == E + |extra|
      && (forall p: nat :: p < P ==> !MarkerAt(head, p, ID_MARKER))
      && MarkerAt(head, P, ID_MARKER)
      && NoBang(head, P + 3, E) && head[E] == '!'
      && NoLineTerminator(head, E, |head|)
      && head[P + 3..E] == id
  {
    var head := pre + ID_MARKER + id + extra;
    var P, E := |pre|, |pre| + 3 + |id|;
    assert forall t :: 0 <= t < P ==> head[t] == pre[t];
    assert head[P] == '!' && head[P + 1] == '1' && head[P + 2] == 's';
    assert forall t :: P + 3 <= t < E ==> head[t] == id[t - P - 3];
    assert forall t :: E <= t < |head| ==> head[t] == extra[t - E];
    forall p: nat | p < P
      ensures !MarkerAt(head, p, ID_MARKER)
    {
      assert !MarkerAt(pre, p, ID_MARKER);
    }
    assert head[P + 3..E] == id;
  }

  /** The part of a place link from its `!3d` on: where the coordinates stop. */
  lemma TailLayout(lat: string, lon: string, post: string) returns (latEnd: nat, lonEnd: nat)
    requires |lat| > 0 && '!' !in lat && |lon| > 0 && '!' !in lon
    requires post == [] || post[0] == '!'
    requires forall p: nat :: !MarkerAt(post, p, LAT_MARKER)
    ensures var tail := LAT_MARKER + lat + LON_MARKER + lon + post;
      && TailMatch(tail, 0, latEnd, lonEnd)
      && (lonEnd == |tail| || tail[lonEnd] == '!')
      && (forall k: nat :: 0 < k ==> !MarkerAt(tail, k, LAT_MARKER))
      && tail[3..latEnd] == lat
      && tail[latEnd + 3..lonEnd] == lon
  {
    var tail := LAT_MARKER + lat + LON_MARKER + lon + post;
    latEnd, lonEnd := 3 + |lat|, 6 + |lat| + |lon|;
    assert tail[0] == '!' && tail[1] == '3' && tail[2] == 'd';
    assert forall t :: 3 <= t < latEnd ==> tail[t] == lat[t - 3];
    assert tail[latEnd] == '!' && tail[latEnd + 1] == '4' && tail[latEnd + 2] == 'd';
    assert forall t :: latEnd + 3 <= t < lonEnd ==> tail[t] == lon[t - latEnd - 3];
    assert forall t :: lonEnd <= t < |tail| ==> tail[t] == post[t - lonEnd];
    forall k: nat | 0 < k
      ensures !MarkerAt(tail, k, LAT_MARKER)
    {
      if lonEnd <= k {
        assert !MarkerAt(post, k - lonEnd, LAT_MARKER);
      }
    }
    assert tail[3..latEnd] == lat;
    assert tail[latEnd + 3..lonEnd] == lon;
  }

  /**
    A link whose id component is followed directly by the coordinates:
    `pre` holds no `!1s`, and an optional `post` component follows the
    longitude.
   */
  function AdjacentLink(pre: string, id: string, lat: string, lon: string, post: string): string {
    (pre + ID_MARKER + id) + (LAT_MARKER + lat + LON_MARKER + lon + post)
  }

  /**
    When `!3d` comes straight after the id, `.+` still needs one character,
    so the engine backtracks into the id and the reported id loses its last
    character. This needs no later `!3d` on the line: `post` holds none, and
    `pre` holds no `!1s`.
   */
  lemma IdAdjacentToLatitudeLosesLastChar(pre: string, id: string, lat: string, lon: string, post: string)
    requires forall p: nat :: !MarkerAt(pre, p, ID_MARKER)
    requires |id| >= 2 && '!' !in id && !IsLineTerminator(id[|id| - 1])
    requires |lat| > 0 && '!' !in lat && |lon| > 0 && '!' !in lon
    requires post == [] || post[0] == '!'
    requires forall p: nat :: !MarkerAt(post, p, LAT_MARKER)
    ensures Extract(Some(AdjacentLink(pre, id, lat, lon, post)))
            == Reference(Some(id[..|id| - 1]), Some(lat), Some(lon))
  {
    var s := AdjacentLink(pre, id, lat, lon, post);
    var m0 := AdjacentLayout(pre, id, lat, lon, post);
    ExtractFirstMatch(s, m0, id[..|id| - 1], lat, lon);
  }

  /** The match the engine reports on an adjacent link, and its pieces. */
  lemma AdjacentLayout(pre: string, id: string, lat: string, lon: string, post: string) returns (m0: Match)
    requires forall p: nat :: !MarkerAt(pre, p, ID_MARKER)
    requires |id| >= 2 && '!' !in id && !IsLineTerminator(id[|id| - 1])
    requires |lat| > 0 && '!' !in lat && |lon| > 0 && '!' !in lon
    requires post == [] || post[0] == '!'
    requires forall p: nat :: !MarkerAt(post, p, LAT_MARKER)
    ensures var s := AdjacentLink(pre, id, lat, lon, post);
      && IsFirstMatch(s, m0)
      && s[m0.open + 3..m0.idEnd] == id[..|id| - 1]
      && s[m0.mid + 3..m0.latEnd] == lat
      && s[m0.latEnd + 3..m0.lonEnd] == lon
  {
    var head := pre + ID_MARKER + id;
    var tail := LAT_MARKER + lat + LON_MARKER + lon + post;
    AdjacentHead(pre, id);
    var latEnd, lonEnd := TailLayout(lat, lon, post);
    m0 := JoinAdjacentLayout(head, tail, |pre|, latEnd, lonEnd);
  }

  /**
    The first match of `head + tail` when `head` ends in `!1s` and an id
    run and `tail` holds the coordinates.
   */
  lemma JoinAdjacentLayout(head: string, tail: string, P: nat, latEnd: nat, lonEnd: nat) returns (m0: Match)
    requires P + 5 <= |head|
    requires forall p: nat :: p < P ==> !MarkerAt(head, p, ID_MARKER)
    requires MarkerAt(head, P, ID_MARKER) && NoBang(head, P + 3, |head|)
    requires !IsLineTerminator(head[|head| - 1])
    requires TailMatch(tail, 0, latEnd, lonEnd)
    requires lonEnd == |tail| || tail[lonEnd] == '!'
    requires forall k: nat :: 0 < k ==> !MarkerAt(tail, k, LAT_MARKER)
    ensures var s, M := head + tail, |head|;
      && IsFirstMatch(s, m0)
      && s[m0.open + 3..m0.idEnd] == head[P + 3..M - 1]
      && s[m0.mid + 3..m0.latEnd] == tail[3..latEnd]
      && s[m0.latEnd + 3..m0.lonEnd] == tail[latEnd + 3..lonEnd]
  {
    JoinTail(head, tail, latEnd, lonEnd);
    JoinAdjacentHead(head, tail, P);
    var M := |head|;
    m0 := Match(P, M - 1, M, M + latEnd, M + lonEnd);
    FirstMatchByLayout(head + tail, m0);
  }

  /** `pre!1s<id>`: where the id run starts, and its last character, which `.+` may take. */
  lemma AdjacentHead(pre: string, id: string)
    requires forall p: nat :: !MarkerAt(pre, p, ID_MARKER)
    requires |id| >= 2 && '!' !in id && !IsLineTerminator(id[|id| - 1])
    ensures var head, P := pre + ID_MARKER + id, |pre|;
      && |head| == P + 3 + |id|
      && (forall p: nat :: p < P ==> !MarkerAt(head, p, ID_MARKER))
      && MarkerAt(head, P, ID_MARKER)
      && NoBang(head, P + 3, |head|)
      && !IsLineTerminator(head[|head| - 1])
      && head[P + 3..|head| - 1] == id[..|id| - 1]
  {
    var head, P := pre + ID_MARKER + id, |pre|;
    assert forall t :: 0 <= t < P ==> head[t] == pre[t];
    assert head[P] == '!' && head[P + 1] == '1' && head[P + 2] == 's';
    assert forall t :: P + 3 <= t < |head| ==> head[t] == id[t - P - 3];
    forall p: nat | p < P
      ensures !MarkerAt(head, p, ID_MARKER)
    {
      assert !MarkerAt(pre, p, ID_MARKER);
    }
    assert head[P + 3..|head| - 1] == id[..|id| - 1];
  }

  /** `head + tail` looks like `head` before `|head|`, where `head` ends in `!1s` and an id run. */
  lemma JoinAdjacentHead(head: string, tail: string, P: nat)
    requires P + 5 <= |head|
    requires forall p: nat :: p < P ==> !MarkerAt(head, p, ID_MARKER)
    requires MarkerAt(head, P, ID_MARKER) && NoBang(head, P + 3, |head|)
    requires !IsLineTerminator(head[|head| - 1])
    requires |tail| > 0 && tail[0] == '!'
    ensures var s, M := head + tail, |head|;
      && (forall p: nat :: p < P ==> !MarkerAt(s, p, ID_MARKER))
      && MarkerAt(s, P, ID_MARKER) && NoBang(s, P + 3, M - 1)
      && NoLineTerminator(s, M - 1, M)
      && M == RunEnd(s, P + 3)
      && s[P + 3..M - 1] == head[P + 3..M - 1]
  {
    var s, M := head + tail, |head|;
    assert forall t :: 0 <= t < M ==> s[t] == head[t];
    forall p: nat | p < P
      ensures !MarkerAt(s, p, ID_MARKER)
    {
      assert !MarkerAt(head, p, ID_MARKER);
    }
    assert s[M] == '!';
    RunEndIsLongest(s, P + 3, M);
    assert s[P + 3..M - 1] == head[P + 3..M - 1];
  }

  /**
    The bare string `!1s<c>!3d<lat>!4d<lon>`, a single-character id directly
    followed by the only `!3d`, leaves the pattern without a match.
   */
  lemma OneCharIdAdjacentToLatitudeDoesNotMatch(c: char, lat: string, lon: string)
    requires c != '!' && '!' !in lat && '!' !in lon
    ensures Extract(Some(ID_MARKER + [c] + LAT_MARKER + lat + LON_MARKER + lon)) == Reference(None, None, None)
  {
    OneCharIdLayout(c, lat, lon);
    ExtractUnmatched(ID_MARKER + [c] + LAT_MARKER + lat + LON_MARKER + lon);
  }

  /** `!1s<c>!3d<lat>!4d<lon>` has no match: `[^!]+` and `.+` cannot share one character. */
  lemma OneCharIdLayout(c: char, lat: string, lon: string)
    requires c != '!' && '!' !in lat && '!' !in lon
    ensures !HasMatch(ID_MARKER + [c] + LAT_MARKER + lat + LON_MARKER + lon)
  {
    var s := ID_MARKER + [c] + LAT_MARKER + lat + LON_MARKER + lon;
    var L := 7 + |lat|;
    assert s[0] == '!' && s[3] == c && s[4] == '!' && s[5] == '3';
    assert forall t :: 7 <= t < L ==> s[t] == lat[t - 7];
    assert s[L] == '!' && s[L + 1] == '4';
    assert forall t :: L + 3 <= t < |s| ==> s[t] == lon[t - L - 3];
  }

  /** A typical place link. */
  lemma ExamplePlaceLink()
    ensures Extract(Some("/maps/place/Monas/data=!1sX:Y!8m2!3d-6.1!4d106.8!16s"))
            == Reference(Some("X:Y"), Some("-6.1"), Some("106.8"))
  {
    ExamplePlaceLinkShape();
    PlaceLinkYieldsFields("/maps/place/Monas/data=", "X:Y", "!8m2", "-6.1", "106.8", "!16s");
  }

  lemma ExamplePlaceLinkShape()
    ensures PlaceLink("/maps/place/Monas/data=", "X:Y", "!8m2", "-6.1", "106.8", "!16s")
            == "/maps/place/Monas/data=!1sX:Y!8m2!3d-6.1!4d106.8!16s"
    ensures forall p: nat :: !MarkerAt("/maps/place/Monas/data=", p, ID_MARKER)
    ensures forall p: nat :: !MarkerAt("!16s", p, LAT_MARKER)
  {
    assert '!' !in "/maps/place/Monas/data=";
  }

  /** `!1sABC123!3d-6.175!4d106.827` gives the id `ABC12`, not `ABC123`. */
  lemma ExampleAdjacentLatitude()
    ensures Extract(Some("!1sABC123!3d-6.175!4d106.827"))
            == Reference(Some("ABC12"), Some("-6.175"), Some("106.827"))
  {
    ExampleAdjacentLatitudeShape();
    IdAdjacentToLatitudeLosesLastChar("", "ABC123", "-6.175", "106.827", "");
  }

  lemma ExampleAdjacentLatitudeShape()
    ensures AdjacentLink("", "ABC123", "-6.175", "106.827", "") == "!1sABC123!3d-6.175!4d106.827"
    ensures "ABC123"[..5] == "ABC12"
  {
  }

  /** The same inside a longer link: `/data=!1sAB!3d1!4d2!16s` gives the id `A`. */
  lemma ExampleAdjacentLatitudeInLink()
    ensures Extract(Some("/data=!1sAB!3d1!4d2!16s")) == Reference(Some("A"), Some("1"), Some("2"))
  {
    ExampleAdjacentLatitudeInLinkShape();
    IdAdjacentToLatitudeLosesLastChar("/data=", "AB", "1", "2", "!16s");
  }

  lemma ExampleAdjacentLatitudeInLinkShape()
    ensures AdjacentLink("/data=", "AB", "1", "2", "!16s") == "/data=!1sAB!3d1!4d2!16s"
    ensures "AB"[..1] == "A"
    ensures forall p: nat :: !MarkerAt("/data=", p, ID_MARKER)
    ensures forall p: nat :: !MarkerAt("!16s", p, LAT_MARKER)
  {
    assert '!' !in "/data=";
  }

  /**
    A later `!3d…!4d…` on the line changes the picture: greedy `.+` reaches
    it, so an id directly before the first `!3d` stays whole, a
    one-character one included, and the later coordinates are reported.
   */
  lemma ExampleLaterTailKeepsWholeId()
    ensures Extract(Some("!1sABC!3d1!4d2!3d5!4d6")) == Reference(Some("ABC"), Some("5"), Some("6"))
    ensures Extract(Some("!1sA!3d1!4d2!3d5!4d6")) == Reference(Some("A"), Some("5"), Some("6"))
  {
    ExampleLaterTailShape();
    PlaceLinkYieldsFields("", "ABC", "!3d1!4d2", "5", "6", "");
    PlaceLinkYieldsFields("", "A", "!3d1!4d2", "5", "6", "");
  }

  lemma ExampleLaterTailShape()
    ensures PlaceLink("", "ABC", "!3d1!4d2", "5", "6", "") == "!1sABC!3d1!4d2!3d5!4d6"
    ensures PlaceLink("", "A", "!3d1!4d2", "5", "6", "") == "!1sA!3d1!4d2!3d5!4d6"
    ensures forall p: nat :: !MarkerAt("", p, ID_MARKER)
    ensures forall p: nat :: !MarkerAt("", p, LAT_MARKER)
  {
  }
}

=== FILE: outcomes.dfy ===
/**
  Value-or-absence and value-or-error wrappers shared by the scraper model.

  `Option` stands for the JavaScript values that may be `undefined`/`null`
  (an attribute the page does not have, a regular expression that does not
  match); `Result` stands for a computation that either yields a value or
  throws.
 */
module Outcomes {

  datatype Option<+T> = None | Some(value: T) {

    /** The wrapped value, or `default` when there is none. */
    function GetOr(default: T): T {
      match this
      case Some(v) => v
      case None => default
    }
  }

  datatype Result<+T, +E> = Ok(value: T) | Err(error: E)
}

=== FILE: scraper.dfy ===
/**
  Record assembly and the gathering loop of `gettingDataFromPage`
  (index.ts:78-197).

  For each index `i` below `limit`, the scraper reads the `href` of the
  `i`-th result link, clicks the link, and reads the detail panel it opens.
  It then pushes one record holding the listing reference, the panel's
  texts, the hours table and the service groups, with `position = i + 1`.
  Any exception ends the whole call, so the caller gets either every record
  or an error.

  The browser is not modelled. Each result link comes with the texts its
  detail panel shows, and each text read through optional chaining is an
  `Option`. The waits are assumed to complete.
 */
module Scraper {
  import opened Outcomes
  import opened ListingReference
  import opened Coercion

  /** One row of the opening-hours table. */
  datatype HoursRow = HoursRow(dayName: Option<string>, hours: Option<string>)

  /** One group of the "About" tab: its heading and the texts of its entries. */
  datatype ServiceGroup = ServiceGroup(title: Option<string>, services: seq<Option<string>>)

  /** The detail panel of one place, as the scraper reads it. */
  datatype DetailView = DetailView(
    title: Option<string>,
    rating: Option<string>,
    reviews: Option<string>,
    placeType: Option<string>,
    address: Option<string>,
    phone: Option<string>,
    website: Option<string>,
    operatingHours: seq<HoursRow>,
    services: seq<ServiceGroup>)

  /** One result link: its `href` attribute (`None` when null) and the panel clicking it opens. */
  datatype Listing = Listing(href: Option<string>, detail: DetailView)

  /**
    One scraped place. `rating` is the rating text with its decimal comma
    turned into a point, as handed to `Number`.
   */
  datatype Record = Record(
    dataId: Option<string>,
    url: Option<string>,
    title: Option<string>,
    position: nat,
    latitude: Option<string>,
    longitude: Option<string>,
    rating: string,
    reviews: nat,
    placeType: Option<string>,
    address: Option<string>,
    phone: string,
    website: string,
    operatingHours: seq<HoursRow>,
    services: seq<ServiceGroup>)

  /** Why the gathering loop throws, and at which index. */
  datatype ScrapeError =
    | MissingHandle(index: nat)   // fewer result links than `limit`: `elements[i]` is `undefined`, and `getAttribute` on it throws
    | AbsentRating(index: nat)    // the rating text is `undefined`
    | AbsentReviews(index: nat)   // the review text is `undefined`

  /** `text || ""`: a missing or empty text becomes the empty string. */
  function OrEmpty(text: Option<string>): (r: string)
    ensures r == [] <==> text.None? || text == Some([])
    ensures text.Some? ==> r == text.value
  {
    text.GetOr([])
  }

  /**
    The record for the result link at index `i`. The rating is read before
    the review count, so a panel missing both fails on its rating.
   */
  function AssembleItem(i: nat, item: Listing): (r: Result<Record, ScrapeError>)
    ensures r.Err? <==> item.detail.rating.None? || item.detail.reviews.None?
    ensures item.detail.rating.None? ==> r == Err(AbsentRating(i))
    ensures item.detail.rating.Some? && item.detail.reviews.None? ==> r == Err(AbsentReviews(i))
    ensures r.Ok? ==> r.value.position == i + 1 && r.value.url == item.href
    ensures r.Ok? ==>
      && r.value.title == item.detail.title && r.value.placeType == item.detail.placeType
      && r.value.address == item.detail.address
      && r.value.operatingHours == item.detail.operatingHours && r.value.services == item.detail.services
    ensures r.Ok? ==> |r.value.rating| == |item.detail.rating.value|
    ensures r.Ok? && item.href.None? ==> r.value.dataId == r.value.latitude == r.value.longitude == Some([])
  {
    var reference := Extract(item.href);
    match NormaliseRating(item.detail.rating)
    case Err(_) => Err(AbsentRating(i))
    case Ok(rating) =>
      match ReviewCount(item.detail.reviews)
      case Err(_) => Err(AbsentReviews(i))
      case Ok(reviews) =>
        Ok(Record(
          reference.dataId, item.href, item.detail.title, i + 1,
          reference.latitude, reference.longitude,
          rating, reviews, item.detail.placeType, item.detail.address,
          OrEmpty(item.detail.phone), OrEmpty(item.detail.website),
          item.detail.operatingHours, item.detail.services))
  }

  /**
    A record's numbers and listing reference are the coercions and the
    extraction applied to what was read, and its phone and website are the
    panel's texts, blank when missing.
   */
  lemma AssembledFields(i: nat, item: Listing)
    requires AssembleItem(i, item).Ok?
    ensures var rec := AssembleItem(i, item).value;
      && Ok(rec.rating) == NormaliseRating(item.detail.rating)
      && Ok(rec.reviews) == ReviewCount(item.detail.reviews)
      && Reference(rec.dataId, rec.latitude, rec.longitude) == Extract(item.href)
      && rec.phone == OrEmpty(item.detail.phone)
      && rec.website == OrEmpty(item.detail.website)
  {
  }

  /** What the loop body yields at index `i`: a record, or the error it throws. */
  function ItemAt(elements: seq<Listing>, i: nat): (r: Result<Record, ScrapeError>)
    ensures i < |elements| ==> r == AssembleItem(i, elements[i])
    ensures r.Err? ==> r.error.index == i
    ensures r.Err? && r.error.MissingHandle? <==> i >= |elements|
    ensures r.Ok? ==> r.value.position == i + 1
  {
    if i < |elements| then AssembleItem(i, elements[i]) else Err(MissingHandle(i))
  }

  /** `data` holds the records of the first `|data|` indices, in order. */
  predicate RecordsOfPrefix(elements: seq<Listing>, data: seq<Record>)
  {
    forall i :: 0 <= i < |data| ==> ItemAt(elements, i) == Ok(data[i])
  }

  /** One more index that yields a record extends the prefix by that record. */
  lemma RecordsOfPrefixStep(elements: seq<Listing>, data: seq<Record>, rec: Record)
    requires RecordsOfPrefix(elements, data) && ItemAt(elements, |data|) == Ok(rec)
    ensures RecordsOfPrefix(elements, data + [rec])
  {
    assert forall i :: 0 <= i < |data| ==> (data + [rec])[i] == data[i];
  }

  /** `data` holds one record per index below `limit`, in order: what the loop returns when nothing throws. */
  predicate Gathered(elements: seq<Listing>, limit: int, data: seq<Record>)
  {
    |data| == (if limit < 0 then 0 else limit) && RecordsOfPrefix(elements, data)
  }

  /** `e` is thrown by an index below `limit`, and every index before it yields a record. */
  predicate FailsFirstAt(elements: seq<Listing>, limit: int, e: ScrapeError)
  {
    && e.index < limit
    && ItemAt(elements, e.index) == Err(e)
    && forall j: nat :: j < e.index ==> ItemAt(elements, j).Ok?
  }

  /**
    The gathering loop: one record per index below `limit`, in order, or the
    error of the first index that throws.
   */
  method GettingData(elements: seq<Listing>, limit: int) returns (r: Result<seq<Record>, ScrapeError>)
    ensures r.Ok? ==> Gathered(elements, limit, r.value)
    ensures r.Err? ==> FailsFirstAt(elements, limit, r.error)
  {
    var data: seq<Record> := [];
    var i: nat := 0;
    while i < limit
      invariant i <= if limit < 0 then 0 else limit
      invariant |data| == i
      invariant RecordsOfPrefix(elements, data)
    {
      var item := ItemAt(elements, i);
      if item.Err? {
        return Err(item.error);
      }
      RecordsOfPrefixStep(elements, data, item.value);
      data := data + [item.value];
      i := i + 1;
    }
    return Ok(data);
  }

  /**
    A run either gathers or fails, never both: gathered records mean no
    index below `limit` throws, so no first failure exists.
   */
  lemma GatheredExcludesFailure(elements: seq<Listing>, limit: int, data: seq<Record>, e: ScrapeError)
    ensures Gathered(elements, limit, data) ==> forall i: nat :: i < limit ==> ItemAt(elements, i).Ok?
    ensures Gathered(elements, limit, data) ==> !FailsFirstAt(elements, limit, e)
  {
    if Gathered(elements, limit, data) {
      forall i: nat | i < limit
        ensures ItemAt(elements, i).Ok?
      {
        assert ItemAt(elements, i) == Ok(data[i]);
      }
    }
  }

  /** The converse: when no index below `limit` throws, the records of those indices are gathered. */
  lemma NoFailureGathers(elements: seq<Listing>, limit: int) returns (data: seq<Record>)
    requires forall i: nat :: i < limit ==> ItemAt(elements, i).Ok?
    ensures Gathered(elements, limit, data)
  {
    var n: nat := if limit < 0 then 0 else limit;
    data := seq(n, i requires 0 <= i < n => ItemAt(elements, i).value);
  }

  /** And when some index below `limit` throws, there is a first one that does. */
  lemma {:induction false} FailureHasFirst(elements: seq<Listing>, limit: int, k: nat) returns (e: ScrapeError)
    requires k < limit && ItemAt(elements, k).Err?
    ensures FailsFirstAt(elements, limit, e)
    decreases k
  {
    if j: nat :| j < k && ItemAt(elements, j).Err? {
      e := FailureHasFirst(elements, limit, j);
    } else {
      e := ItemAt(elements, k).error;
    }
  }

  /** Records come in the order of the result links: record `i` is assembled from link `i`. */
  lemma GatheredFromLinks(elements: seq<Listing>, limit: int, data: seq<Record>)
    requires Gathered(elements, limit, data)
    ensures |data| <= |elements|
    ensures forall i :: 0 <= i < |data| ==> AssembleItem(i, elements[i]) == Ok(data[i])
  {
    if |data| > 0 {
      assert ItemAt(elements, |data| - 1) == Ok(data[|data| - 1]);
    }
    forall i | 0 <= i < |data|
      ensures AssembleItem(i, elements[i]) == Ok(data[i])
    {
      assert ItemAt(elements, i) == Ok(data[i]);
    }
  }

  /** Gathered records are numbered 1, 2, ... in list order. */
  lemma GatheredPositions(elements: seq<Listing>, limit: int, data: seq<Record>)
    requires Gathered(elements, limit, data)
    ensures forall i :: 0 <= i < |data| ==> data[i].position == i + 1
  {
    forall i | 0 <= i < |data|
      ensures data[i].position == i + 1
    {
      assert ItemAt(elements, i) == Ok(data[i]);
    }
  }

  /** The records gathered are fully determined by the links and the limit. */
  lemma GatheredUnique(elements: seq<Listing>, limit: int, a: seq<Record>, b: seq<Record>)
    requires Gathered(elements, limit, a) && Gathered(elements, limit, b)
    ensures a == b
  {
    forall i | 0 <= i < |a|
      ensures a[i] == b[i]
    {
      assert ItemAt(elements, i) == Ok(a[i]);
    }
  }

  /**
    Asking for more places than there are result links cannot gather: the
    first index past the last link throws, unless an earlier panel already
    did.
   */
  lemma TooFewLinksFails(elements: seq<Listing>, limit: int, data: seq<Record>)
    requires limit > |elements|
    ensures !Gathered(elements, limit, data)
  {
    if |elements| < |data| {
      assert ItemAt(elements, |elements|) != Ok(data[|elements|]);
    }
  }

  /** A missing link is only ever reported for the index just past the last one. */
  lemma MissingHandleIsPastLastLink(elements: seq<Listing>, limit: int, e: ScrapeError)
    requires FailsFirstAt(elements, limit, e) && e.MissingHandle?
    ensures e.index == |elements|
  {
    assert ItemAt(elements, |elements|).Err?;
  }
}

=== FILE: scroll.dfy ===
/**
  The stopping rule of `scrollResult` (index.ts:50-76).

  The results panel is scrolled to its bottom over and over. After each
  scroll the panel's new `scrollHeight` and the number of result links on
  the page are read, and the loop stops as soon as the height equals the
  one remembered from the previous read or at least `limit` links are
  loaded; a height that drops does not stop it. Otherwise
  the new height becomes the one compared against next time.

  The page is not modelled: the reads it would answer are given as a
  finite trace of rounds, one per pass through the loop. A trace that ends
  before the loop stops means the loop is still scrolling when the trace
  runs out.
 */
module ScrollLoop {

  /** What one pass reads after scrolling: the panel height and the number of loaded links. */
  datatype Round = Round(height: int, count: nat)

  /** `StopsAt(k)`: the loop breaks in round `k` (counting from 0); `Exhausted`: it has not stopped within the trace. */
  datatype ScrollOutcome = StopsAt(round: nat) | Exhausted

  /** The break condition of one pass, given the height remembered from before it. */
  predicate Breaks(lastHeight: int, r: Round, limit: int)
  {
    r.height == lastHeight || limit <= r.count
  }

  /**
    The height remembered when round `i` starts: the initial read for the
    first round, and the height read in the round before for every later
    one, since a pass that does not break stores its height.
   */
  function HeightBefore(initial: int, rounds: seq<Round>, i: nat): int
    requires i < |rounds|
  {
    if i == 0 then initial else rounds[i - 1].height
  }

  /** Round `i` meets the break condition. */
  predicate BreaksAt(initial: int, rounds: seq<Round>, limit: int, i: nat)
    requires i < |rounds|
  {
    Breaks(HeightBefore(initial, rounds, i), rounds[i], limit)
  }

  /** The loop, one pass at a time, carrying the remembered height. */
  function Converge(lastHeight: int, rounds: seq<Round>, limit: int): (r: ScrollOutcome)
    ensures r.StopsAt? ==> r.round < |rounds| && BreaksAt(lastHeight, rounds, limit, r.round)
    ensures r.StopsAt? ==> forall j: nat :: j < r.round ==> !BreaksAt(lastHeight, rounds, limit, j)
    ensures r.Exhausted? <==> forall j: nat :: j < |rounds| ==> !BreaksAt(lastHeight, rounds, limit, j)
    decreases |rounds|
  {
    if |rounds| == 0 then Exhausted
    else if Breaks(lastHeight, rounds[0], limit) then
      assert BreaksAt(lastHeight, rounds, limit, 0);
      StopsAt(0)
    else
      var rest := Converge(rounds[0].height, rounds[1..], limit);
      assert forall j: nat :: 0 < j < |rounds| ==>
        BreaksAt(lastHeight, rounds, limit, j) == BreaksAt(rounds[0].height, rounds[1..], limit, j - 1);
      match rest
      case StopsAt(k) => StopsAt(k + 1)
      case Exhausted => Exhausted
  }

  /**
    The loop breaks in round `k` exactly when round `k` is the first one
    meeting the break condition.
   */
  lemma ConvergeStopsAtFirstBreak(initial: int, rounds: seq<Round>, limit: int, k: nat)
    ensures Converge(initial, rounds, limit) == StopsAt(k) <==>
      k < |rounds| && BreaksAt(initial, rounds, limit, k)
      && forall j: nat :: j < k ==> !BreaksAt(initial, rounds, limit, j)
  {
  }

  /** A first read of the same height as the initial one ends the loop at once, whatever the count. */
  lemma SameHeightStopsFirstRound(initial: int, rounds: seq<Round>, limit: int)
    requires |rounds| > 0 && rounds[0].height == initial
    ensures Converge(initial, rounds, limit) == StopsAt(0)
  {
  }

  /** A non-positive `limit` is met by any count, so the first pass always breaks. */
  lemma NonPositiveLimitStopsFirstRound(initial: int, rounds: seq<Round>, limit: int)
    requires |rounds| > 0 && limit <= 0
    ensures Converge(initial, rounds, limit) == StopsAt(0)
  {
  }

  /**
    While the panel keeps growing and fewer than `limit` links are loaded,
    the loop does not stop.
   */
  lemma GrowingPanelKeepsScrolling(initial: int, rounds: seq<Round>, limit: int)
    requires forall j :: 0 <= j < |rounds| ==> rounds[j].count < limit
    requires |rounds| > 0 ==> initial < rounds[0].height
    requires forall j :: 0 < j < |rounds| ==> rounds[j - 1].height < rounds[j].height
    ensures Converge(initial, rounds, limit) == Exhausted
  {
    forall j: nat | j < |rounds|
      ensures !BreaksAt(initial, rounds, limit, j)
    {
      if j > 0 {
        assert rounds[j - 1].height < rounds[j].height;
      }
    }
  }

  /**
    Only an equal height stops the loop, not a lower one: while every read
    differs from the height remembered before it and fewer than `limit`
    links are loaded, the loop keeps scrolling.
   */
  lemma ChangingHeightKeepsScrolling(initial: int, rounds: seq<Round>, limit: int)
    requires forall j :: 0 <= j < |rounds| ==> rounds[j].count < limit
    requires forall j :: 0 <= j < |rounds| ==> rounds[j].height != HeightBefore(initial, rounds, j)
    ensures Converge(initial, rounds, limit) == Exhausted
  {
    forall j: nat | j < |rounds|
      ensures !BreaksAt(initial, rounds, limit, j)
    {
      assert rounds[j].height != HeightBefore(initial, rounds, j);
    }
  }

  /** A panel that shrinks from 1000 to 900 with few links loaded is scrolled again. */
  lemma ShrinkingPanelExample()
    ensures Converge(1000, [Round(900, 0)], 10) == Exhausted
  {
    ChangingHeightKeepsScrolling(1000, [Round(900, 0)], 10);
  }

  /**
    The loop only looks at the rounds up to the one where it breaks:
    passes read afterwards never happen, so they change nothing.
   */
  lemma {:induction false} StopIgnoresLaterRounds(initial: int, rounds: seq<Round>, more: seq<Round>, limit: int)
    requires Converge(initial, rounds, limit).StopsAt?
    ensures Converge(initial, rounds + more, limit) == Converge(initial, rounds, limit)
    decreases |rounds|
  {
    assert (rounds + more)[0] == rounds[0];
    if !Breaks(initial, rounds[0], limit) {
      assert (rounds + more)[1..] == rounds[1..] + more;
      StopIgnoresLaterRounds(rounds[0].height, rounds[1..], more, limit);
    }
  }

  /**
    A trace the loop survives can be continued: the loop resumes with the
    height read last, and a break in the continuation is counted after the
    rounds already passed.
   */
  lemma {:induction false} ExhaustedResumes(initial: int, rounds: seq<Round>, more: seq<Round>, limit: int)
    requires |rounds| > 0 && Converge(initial, rounds, limit) == Exhausted
    ensures Converge(initial, rounds + more, limit) ==
      match Converge(rounds[|rounds| - 1].height, more, limit)
      case StopsAt(k) => StopsAt(|rounds| + k)
      case Exhausted => Exhausted
    decreases |rounds|
  {
    assert (rounds + more)[0] == rounds[0];
    assert !Breaks(initial, rounds[0], limit) by {
      assert !BreaksAt(initial, rounds, limit, 0);
    }
    assert (rounds + more)[1..] == rounds[1..] + more;
    if |rounds| > 1 {
      assert Converge(rounds[0].height, rounds[1..], limit) == Exhausted;
      ExhaustedResumes(rounds[0].height, rounds[1..], more, limit);
      assert rounds[1..][|rounds[1..]| - 1] == rounds[|rounds| - 1];
    } else {
      assert rounds[1..] + more == more;
    }
  }
}
